=== FILE: README.md ===
# Content gateway of the massa-kasu blog, in Dafny

The blog fetches posts ("blog" endpoint) and announcements ("news" endpoint) from the microCMS
headless CMS through `ContentClient` (src/lib/blog.ts), which keeps a cache-aside copy of CMS
answers in a Cloudflare KV namespace. A CMS webhook deletes the cache entry of changed content.
Two small pure rules sit beside it: the description truncation of src/lib/description.ts and the
RSS item projection of src/pages/rss.xml.ts.

The model is functional. The KV namespace is a `map<string, string>`. Every gateway operation
takes the store before the call and returns a `Run`: the result (a value, or the error the
TypeScript code would throw), the store after the call, and the sequence of calls made to the
store and to the CMS. That trace is what lets "no CMS call on a hit", "no store call for drafts"
and "nothing happens before the delimiter check" be stated about pure functions.

Things outside the code are parameters:

- the microCMS client is a record of functions (`Cms.Client`), each of which answers or throws;
- `JSON.parse`/`JSON.stringify` are a `Cms.Codec`, of which the model assumes only what JSON
  guarantees: the empty text does not parse (`JsonLike`), plus, where a lemma needs it, that a
  given value survives a round trip (`RoundTrips`);
- whether `kv.get`, `kv.put` and `kv.delete` throw during a call is the `KvIo` input;
- `htmlToText` is a function parameter.

Files:

- `results.dfy`: `Option` and `Result`.
- `content.dfy`: the CMS records and the webhook payload.
- `cms.dfy`: the CMS queries, the client, and the JSON codec.
- `effects.dfy`: the store, errors, the call trace and `Run`.
- `keys.dfy`: the cache key scheme.
- `pagination.dfy`: the search page arithmetic.
- `client.dfy`: `ContentClient` itself.
- `cache_aside.dfy`: properties relating several calls.
- `coherence.dfy`: cache coherence over whole runs of calls.
- `freshness.dfy`: staleness after content changes, and the repaired invalidation.
- `description.dfy`: description truncation.
- `feed.dfy`: the RSS item projection.

A cached read treats every failure the same way, all as a miss: a throwing `kv.get`, an absent
key, and a value that does not parse. The absent key counts because the code parses `""` in its
place and `JSON.parse("")` throws. On a miss the CMS answer is returned. A CMS exception
propagates unchanged, and nothing is written. On success one `kv.put` of the serialised answer is
attempted, and its failure is swallowed.

While CMS content stays fixed, the cache is coherent over whole runs. Every entry holds the
serialised CMS answer for the query its key names, and every call keeps that so. As a result,
starting from an empty cache, every read after any run of calls returns exactly what the CMS
answers (`Coherence.CacheIsTransparent`). This needs four conditions. The CMS content must not
change during the run. List reads must use delimiter-free endpoints, as the blog's own wrappers
do: an unguarded list read of "a.b" would share its key with the item "b" of "a". The JSON codecs
must behave as JSON on what the CMS serves (`FaithfulJson`: the empty text does not parse, and
every CMS answer survives a round trip). And the statement covers a client of one content type
at a time.

Once content changes, list reads stop being transparent. A webhook about a post names that post,
so it deletes only "blog.{id}". The "blog" list entry has no expiry, so `getAllPosts`, and the RSS
feed built from it, keep serving the list cached before the change (`Freshness.StaleListAfterItemWebhook`).
Item reads do stay fresh (`CacheAside.InvalidationForcesRefetch`). This is recorded under "## Findings".
The gateway model keeps the code's single-key deletion; the repaired invalidation sits beside it
in `freshness.dfy`.

The code intends to reject webhooks with an invalid signature: it has a `RangeError` branch for
them (src/lib/blog.ts:163). But the promise returned by `crypto.subtle.verify` is never awaited
(src/lib/blog.ts:156-161), so it is always truthy and that branch can never run. The model follows the code: the
signature options have no effect (`CacheAside.SignatureIgnored`), and no claim is made that an
invalid signature prevents deletion.

## Model

| member | source | states |
|---|---|---|
| ContentClient.ReadCache | src/lib/blog.ts:46-48 | a throwing `kv.get` is a miss; a present key yields exactly the parse of its value; under JSON semantics an absent key is a miss |
| ContentClient.CacheAside | src/lib/blog.ts:46-61 | hit returns the cached value with only a `get` and no store change; miss returns the CMS answer (or its error) after exactly `get` then the CMS call, followed by one `put` of the serialised answer when the CMS answered and by nothing when it threw; the store changes only by that successful write, at that key |
| ContentClient.GetAllContents | src/lib/blog.ts:43-62 | list reads are cached under the endpoint name; a hit makes no CMS call and changes nothing; a miss returns the CMS list fetched in `createdAt` order; a successful write-back stores its serialisation and no other key changes |
| ContentClient.GetContentFromId | src/lib/blog.ts:64-90 | an endpoint containing "." raises the TypeError with no call and no store change; otherwise the same hit/miss/write-back behaviour under key `endpoint.contentId` using `getListDetail` without a draft key |
| ContentClient.GetDraft | src/lib/blog.ts:92-102 | drafts make exactly one CMS detail call carrying the draft key and never touch the store; the result is that call's answer, and when that call throws, its error is passed on unchanged |
| ContentClient.GetAllPosts | src/lib/blog.ts:104-106 | on a hit the cached "blog" list, on a miss the CMS "blog" list in creation order (or its error unchanged); only the "blog" key can change and the only CMS call is that list |
| ContentClient.GetAllAnnouncements | src/lib/blog.ts:108-110 | on a hit the cached "news" list, on a miss the CMS "news" list in creation order (or its error unchanged); only the "news" key can change and the only CMS call is that list |
| ContentClient.GetPost | src/lib/blog.ts:112-114 | on a hit the cached post, on a miss the CMS detail of that post (or its error unchanged); never the delimiter TypeError; only key "blog.{id}" can change; the only CMS call is that detail |
| ContentClient.GetAnnouncement | src/lib/blog.ts:116-118 | on a hit the cached announcement, on a miss the CMS detail of it (or its error unchanged); never the delimiter TypeError; only key "news.{id}" can change; the only CMS call is that detail |
| ContentClient.GetBlogDraft | src/lib/blog.ts:138-140 | the result is the CMS draft detail on "blog" with the draft key, or its error unchanged; store unchanged; that detail call is the only call |
| ContentClient.SearchBlog | src/lib/blog.ts:120-136 | store unchanged; one search on "blog" with limit 10, order `publishedAt`, offset `page*10`; `next` iff `(page+1)*10 < totalCount`, `back` iff `page != 0`; contents are the CMS page; a throwing search is passed on unchanged |
| ContentClient.InvalidationKey | src/lib/blog.ts:167-169 | the deleted key is the gateway's item key `api.id` for a non-empty id, and the gateway's list key `api` for a null or empty id |
| ContentClient.WebhookDelete | src/lib/blog.ts:142-170 | an unparsable body raises a SyntaxError with no store call; otherwise exactly one `delete` of the invalidation key; on success that key is gone and every other entry is unchanged; on failure nothing changes |
| Keys.ListKey | src/lib/blog.ts:44 | a list key is delimiter-free when its endpoint is |
| Keys.ItemKey | src/lib/blog.ts:76 | an item key is the endpoint, then ".", then the content id |
| Keys.ItemKeyInjective | src/lib/blog.ts:70-76 | for delimiter-free endpoints, equal item keys mean equal (endpoint, id) pairs |
| Keys.ItemKeyIsNotListKey | src/lib/blog.ts:70-76 | an item key never equals the list key of a delimiter-free endpoint |
| Keys.UnguardedListKeyMeetsItemKey | src/lib/blog.ts:43-44 | list reads have no delimiter guard, so the list key of "a.b" is the item key of ("a", "b") |
| Pagination.LastPage | src/lib/blog.ts:127 | the last non-empty page starts inside the result set and the page after it does not |
| Pagination.NextIffBeforeLastPage | src/lib/blog.ts:127-132 | for a page from 0 on and a non-empty result, `next` holds iff the page is before the last non-empty page |
| Pagination.PastLastPage | src/lib/blog.ts:127-133 | the page after the last non-empty page is empty, has `back` and has no `next` |
| Pagination.TwentyFiveResults | src/lib/blog.ts:125-133 | with 25 results, page 0 has `next` and not `back`, page 2 has `back` and not `next` and offset 20 |
| CacheAside.ListMissThenHit | src/lib/blog.ts:43-61 | after a list miss with a successful write-back of a round-tripping value, the next read returns the same list, makes no CMS call and changes nothing |
| CacheAside.ItemMissThenHit | src/lib/blog.ts:75-89 | the same for single items of a delimiter-free endpoint |
| CacheAside.ListWriteFailureInvisible | src/lib/blog.ts:55-58 | whether `put` fails changes neither the list returned nor the calls made |
| CacheAside.ItemWriteFailureInvisible | src/lib/blog.ts:83-86 | whether `put` fails changes neither the item returned nor the calls made |
| CacheAside.ItemInvalidationMatchesGatewayKey | src/lib/blog.ts:165-169 | every store call of a single-item read of (api, id) is on the key a webhook for (api, id) deletes |
| CacheAside.ListInvalidationMatchesGatewayKey | src/lib/blog.ts:165-169 | every store call of a list read of `api` is on the key a webhook for `api` with a null id deletes |
| CacheAside.InvalidationForcesRefetch | src/lib/blog.ts:165-169 | after a successful invalidation of an item, the next read of it returns the CMS answer and calls the CMS |
| CacheAside.ItemInvalidationKeepsList | src/lib/blog.ts:165-169 | invalidating an item leaves the cached list of its endpoint untouched |
| CacheAside.BlogWebhookExamples | src/lib/blog.ts:165-169 | `{api: "blog", id: "42"}` deletes "blog.42" and keeps "blog"; a null id deletes "blog" |
| CacheAside.WrapperKeysDisjoint | src/lib/blog.ts:104-118 | the "blog" list, the "news" list, a post and an announcement are cached under four pairwise distinct keys |
| CacheAside.SignatureIgnored | src/lib/blog.ts:156-163 | the signature options do not influence the outcome, as the verification promise is never awaited |
| CacheAside.InvalidateAbsentKey | src/lib/blog.ts:167-169 | deleting an absent key succeeds and leaves the store unchanged |
| CacheAside.InvalidationIdempotent | src/lib/blog.ts:167-169 | delivering the same webhook twice leaves the store as delivering it once |
| Coherence.ItemKeySplits | src/lib/blog.ts:70-76 | an item key of a delimiter-free endpoint splits at its first "." back into the endpoint and the content id |
| Coherence.StepKeepsCoherent | src/lib/blog.ts:43-169 | each gateway call (list read on a delimiter-free endpoint, item read, draft, webhook) keeps every entry equal to the serialised CMS answer for its key |
| Coherence.ReplayKeepsCoherent | src/lib/blog.ts:43-169 | any run of such calls keeps the cache coherent |
| Coherence.ListReadTransparent | src/lib/blog.ts:43-61 | on a coherent cache with JSON-faithful codecs, a list read returns exactly the CMS answer, hit or miss |
| Coherence.ItemReadTransparent | src/lib/blog.ts:64-89 | on a coherent cache with JSON-faithful codecs, an item read returns exactly the CMS answer, hit or miss |
| Coherence.CacheIsTransparent | src/lib/blog.ts:43-89 | from an empty cache, after any run of calls, list and item reads return exactly what the CMS answers |
| Freshness.StaleListAfterItemWebhook | src/lib/blog.ts:165-169 | as written: after an item webhook, a list read still returns the list cached before, with no CMS call, so it differs from any changed CMS answer |
| Freshness.WebhookDeleteFresh | src/lib/blog.ts:142-170 | corrected invalidation: an unparsable body is a SyntaxError with no change; on success both the item key and the endpoint's list key are gone and every other entry is unchanged |
| Freshness.FreshAfterCorrectedWebhook | src/lib/blog.ts:165-169 | with the corrected invalidation, the next list read and the next item read both return the current CMS answer |
| Description.Truncate | src/lib/description.ts:4-12 | the result is at most 50 long and never longer than the text; text up to 50 is kept; longer text keeps its first 47 characters followed by "..." for exactly 50 |
| Description.GetDescriptionFor | src/lib/description.ts:3-15 | the description is at most 50 long; it equals the plain text exactly when that text is at most 50 long; longer text becomes its first 47 characters followed by "..." |
| Description.TruncateIdempotent | src/lib/description.ts:9-12 | truncating a description again changes nothing |
| Description.TruncateKeepsIffShort | src/lib/description.ts:9-12 | the text comes back unchanged exactly when it is at most 50 long |
| Description.TruncateKeepsFirst47 | src/lib/description.ts:9-11 | a text of at least 47 characters keeps its first 47 characters |
| Feed.LinkRoundTrip | src/pages/rss.xml.ts:19 | the post id can be read back from its link |
| Feed.LinkIdSound | src/pages/rss.xml.ts:19 | every text read as a link is the link of the id read from it |
| Feed.LinkInjective | src/pages/rss.xml.ts:19 | different ids give different links |
| Feed.ToFeedItem | src/pages/rss.xml.ts:15-19 | title and content are copied; the link is `/blog/{id}/`; categories is `[name]` iff a category with a non-empty name exists; pubDate is absent iff `publishedAt` is missing or empty, else it is that timestamp |
| Feed.FeedItems | src/pages/rss.xml.ts:14 | one item per post, in the same order, each the projection of its post |
| Feed.FeedLinksDistinct | src/pages/rss.xml.ts:14-19 | posts with distinct ids give a feed with pairwise distinct links |

## Findings

| source | as written | input that shows it | evidently intended | confidence | as-written member | corrected member |
|---|---|---|---|---|---|---|
| src/lib/blog.ts:165-169 | a webhook deletes only `api.id` when it carries an id, and the list cached under `api` has no expiry | "blog" caches a list without post 42; post 42 is published; the webhook `{api: "blog", id: "42", type: "new"}` arrives; `getAllPosts` still returns the old list | a change to an item also invalidates its endpoint's list, so lists and the RSS feed pick up the change | medium, not executed | Freshness.StaleListAfterItemWebhook | Freshness.WebhookDeleteFresh |

## Left out

- HMAC signature verification (src/lib/blog.ts:147-163): it calls Web Crypto, and its result is never awaited, so it cannot reject. The model keeps only the unused `SignatureOptions` input. A throwing `crypto.subtle.importKey` is not modelled.
- The HTTP route of src/pages/purgeCache.ts: it is request plumbing, and it does not await `webhookDelete`, so deletion failures never reach its catch.
- ContentClient.ReadCache: JSON of the wrong shape is served as a hit. The code returns any cached text that parses without checking its shape (src/lib/blog.ts:47, 61), so a cached `"null"` or `"{}"` is returned as the list. The typed `Codec` cannot express such a value, so only text that does not parse is a miss in the model.
- Real JSON: `JSON.parse`/`JSON.stringify` are the abstract `Codec`. Fields of a parsed webhook of unexpected types are not modelled. Examples are a missing `api` or a non-string `id`.
- The microCMS SDK: `createClient`, `getAllContents`, `getListDetail` and `getList` are uninterpreted client functions. Their paging, rate limits and network errors appear only as "answers or throws".
- KV consistency across requests, concurrent readers that miss together, and last-writer-wins races: each operation is one atomic step on the map.
- async/await and Promise scheduling: calls happen in program order.
- ContentClient.WebhookDelete: when `kv.delete` throws, the store is modelled as unchanged; the real store gives no such promise.
- `new Date(publishedAt)` in the feed: `pubDate` holds the timestamp text the Date is built from.
- The `@astrojs/rss` renderer, the site title, description and URL, and the client's service domain.
- String lengths: JavaScript counts UTF-16 code units, the model counts `char`s.
- ContentClient.SearchBlog: `page` is an integer. JavaScript also allows fractional page numbers, which are not modelled. The default `page = 0` is the caller passing 0.
- Coherence.CacheIsTransparent: the CMS is fixed during a run. Content changes are not events of the run. With such changes, list reads are not transparent (see "## Findings"); `Freshness` covers one change followed by its webhook. The coherence lemmas also cover a client of one content type at a time.
- The webhook's `content` field is ignored by the code and left out of `Webhook`.

=== FILE: cache_aside.dfy ===
/** Properties that relate several calls of the gateway and of webhook invalidation: the cache
    fills on a miss and then serves hits, a failed write-back is invisible to readers, and a
    webhook removes exactly the entry the gateway wrote, so the next read goes back to the CMS. */
module CacheAside {
  import opened Results
  import opened Content
  import opened Cms
  import opened Effects
  import opened Keys
  import opened ContentClient

  /** A list read that missed and wrote back successfully is followed by a hit: the second read
      returns the same list, leaves the store alone and makes no CMS call. */
  lemma ListMissThenHit<T>(cms: Client<T>, codec: Codec<seq<Listed<T>>>, io: KvIo, io2: KvIo, store: Store, endpoint: string)
    requires ReadCache(codec, io, store, endpoint).None?
    requires cms.getAllContents(ListQuery(endpoint, CreatedAt)).Ok?
    requires RoundTrips(codec, cms.getAllContents(ListQuery(endpoint, CreatedAt)).value)
    requires io.writeOk && io2.readOk
    ensures var first := GetAllContents(cms, codec, io, store, endpoint);
            var second := GetAllContents(cms, codec, io2, first.kv, endpoint);
            && second.result == first.result
            && second.kv == first.kv
            && second.effects == [KvGet(endpoint)]
  {
  }

  /** The same for single items of a delimiter-free endpoint. */
  lemma ItemMissThenHit<T>(cms: Client<T>, codec: Codec<Listed<T>>, io: KvIo, io2: KvIo, store: Store, endpoint: string, id: string)
    requires Delimiter !in endpoint
    requires ReadCache(codec, io, store, ItemKey(endpoint, id)).None?
    requires cms.getListDetail(DetailQuery(endpoint, id, None)).Ok?
    requires RoundTrips(codec, cms.getListDetail(DetailQuery(endpoint, id, None)).value)
    requires io.writeOk && io2.readOk
    ensures var first := GetContentFromId(cms, codec, io, store, endpoint, id);
            var second := GetContentFromId(cms, codec, io2, first.kv, endpoint, id);
            && second.result == first.result
            && second.kv == first.kv
            && second.effects == [KvGet(ItemKey(endpoint, id))]
  {
  }

  /** Whether the write-back succeeds changes neither the list returned nor the calls made. */
  lemma ListWriteFailureInvisible<T>(cms: Client<T>, codec: Codec<seq<Listed<T>>>, io1: KvIo, io2: KvIo, store: Store, endpoint: string)
    requires io1.readOk == io2.readOk
    ensures GetAllContents(cms, codec, io1, store, endpoint).result == GetAllContents(cms, codec, io2, store, endpoint).result
    ensures GetAllContents(cms, codec, io1, store, endpoint).effects == GetAllContents(cms, codec, io2, store, endpoint).effects
  {
  }

  /** Whether the write-back succeeds changes neither the item returned nor the calls made. */
  lemma ItemWriteFailureInvisible<T>(cms: Client<T>, codec: Codec<Listed<T>>, io1: KvIo, io2: KvIo, store: Store, endpoint: string, id: string)
    requires io1.readOk == io2.readOk
    ensures GetContentFromId(cms, codec, io1, store, endpoint, id).result == GetContentFromId(cms, codec, io2, store, endpoint, id).result
    ensures GetContentFromId(cms, codec, io1, store, endpoint, id).effects == GetContentFromId(cms, codec, io2, store, endpoint, id).effects
  {
  }

  /** A webhook naming an item invalidates the very key a single-item read of that item uses:
      every store call of the read is on the key the webhook deletes. */
  lemma ItemInvalidationMatchesGatewayKey<T>(hook: Webhook, cms: Client<T>, codec: Codec<Listed<T>>, io: KvIo, store: Store)
    requires Delimiter !in hook.api && hook.id.Some? && hook.id.value != ""
    ensures var read := GetContentFromId(cms, codec, io, store, hook.api, hook.id.value);
            && |read.effects| > 0 && read.effects[0] == KvGet(InvalidationKey(hook))
            && forall e | e in read.effects && e.IsKv() :: e.key == InvalidationKey(hook)
  {
  }

  /** A webhook without an item id invalidates the key a list read of the endpoint uses. */
  lemma ListInvalidationMatchesGatewayKey<T>(hook: Webhook, cms: Client<T>, codec: Codec<seq<Listed<T>>>, io: KvIo, store: Store)
    requires hook.id.None? || hook.id.value == ""
    ensures var read := GetAllContents(cms, codec, io, store, hook.api);
            && |read.effects| > 0 && read.effects[0] == KvGet(InvalidationKey(hook))
            && forall e | e in read.effects && e.IsKv() :: e.key == InvalidationKey(hook)
  {
  }

  /** After a successful invalidation of an item, the next read of that item is a miss: it
      returns what the CMS answers and calls the CMS. */
  lemma InvalidationForcesRefetch<T>(
    parse: string -> Option<Webhook>, rawBody: string, options: SignatureOptions,
    cms: Client<T>, codec: Codec<Listed<T>>, io: KvIo, io2: KvIo, store: Store)
    requires JsonLike(codec)
    requires parse(rawBody).Some? && io.deleteOk
    requires Delimiter !in parse(rawBody).value.api
    requires parse(rawBody).value.id.Some? && parse(rawBody).value.id.value != ""
    ensures var hook := parse(rawBody).value;
            var after := WebhookDelete(parse, io, store, rawBody, options).kv;
            var read := GetContentFromId(cms, codec, io2, after, hook.api, hook.id.value);
            && read.result == FromCms(cms.getListDetail(DetailQuery(hook.api, hook.id.value, None)))
            && CmsDetail(DetailQuery(hook.api, hook.id.value, None)) in read.effects
  {
  }

  /** Invalidating an item leaves the cached list of its endpoint as it was. */
  lemma ItemInvalidationKeepsList(parse: string -> Option<Webhook>, rawBody: string, options: SignatureOptions, io: KvIo, store: Store)
    requires parse(rawBody).Some?
    requires Delimiter !in parse(rawBody).value.api
    requires parse(rawBody).value.id.Some? && parse(rawBody).value.id.value != ""
    ensures var api := parse(rawBody).value.api;
            var after := WebhookDelete(parse, io, store, rawBody, options).kv;
            && (api in after <==> api in store)
            && (api in store ==> after[api] == store[api])
  {
    var hook := parse(rawBody).value;
    ItemKeyIsNotListKey(hook.api, hook.id.value, hook.api);
  }

  /** The webhook `{api: "blog", id: "42"}` deletes "blog.42" and keeps "blog"; with a null id it
      deletes "blog". */
  lemma BlogWebhookExamples(parse: string -> Option<Webhook>, rawBody: string, options: SignatureOptions, io: KvIo, store: Store, service: string, mutation: Mutation)
    ensures parse(rawBody) == Some(Webhook(service, "blog", Some("42"), mutation)) ==>
              var r := WebhookDelete(parse, io, store, rawBody, options);
              && r.effects == [KvDelete("blog.42")]
              && ("blog" in store ==> "blog" in r.kv && r.kv["blog"] == store["blog"])
    ensures parse(rawBody) == Some(Webhook(service, "blog", None, mutation)) ==>
              WebhookDelete(parse, io, store, rawBody, options).effects == [KvDelete("blog")]
  {
    assert ItemKey("blog", "42") == "blog.42";
  }

  /** The signature options never change the outcome. This records a modelling choice rather than
      evidence about the code: `WebhookDelete` does not read `options`, because the promise of
      `crypto.subtle.verify` is never awaited and so, being truthy, can never trigger the
      RangeError branch. */
  lemma SignatureIgnored(parse: string -> Option<Webhook>, io: KvIo, store: Store, rawBody: string, o1: SignatureOptions, o2: SignatureOptions)
    ensures WebhookDelete(parse, io, store, rawBody, o1) == WebhookDelete(parse, io, store, rawBody, o2)
  {
  }

  /** Deleting a key that is not cached leaves the store unchanged and is not an error. */
  lemma InvalidateAbsentKey(parse: string -> Option<Webhook>, io: KvIo, store: Store, rawBody: string, options: SignatureOptions)
    requires parse(rawBody).Some? && io.deleteOk
    requires InvalidationKey(parse(rawBody).value) !in store
    ensures WebhookDelete(parse, io, store, rawBody, options).result.Ok?
    ensures WebhookDelete(parse, io, store, rawBody, options).kv == store
  {
  }

  /** Delivering the same webhook twice leaves the store as delivering it once. */
  lemma InvalidationIdempotent(parse: string -> Option<Webhook>, io: KvIo, store: Store, rawBody: string, options: SignatureOptions)
    ensures var once := WebhookDelete(parse, io, store, rawBody, options).kv;
            WebhookDelete(parse, io, once, rawBody, options).kv == once
  {
  }

  /** The fixed-endpoint wrappers never touch each other's entries: the "blog" list, the "news"
      list, a post and an announcement are cached under four pairwise distinct keys. */
  lemma WrapperKeysDisjoint(postId: string, announcementId: string)
    ensures var keys := [ListKey(BlogApi), ListKey(AnnouncementApi), ItemKey(BlogApi, postId), ItemKey(AnnouncementApi, announcementId)];
            forall i, j | 0 <= i < j < 4 :: keys[i] != keys[j]
  {
    ItemKeyIsNotListKey(BlogApi, postId, BlogApi);
    ItemKeyIsNotListKey(BlogApi, postId, AnnouncementApi);
    ItemKeyIsNotListKey(AnnouncementApi, announcementId, BlogApi);
    ItemKeyIsNotListKey(AnnouncementApi, announcementId, AnnouncementApi);
    if ItemKey(BlogApi, postId) == ItemKey(AnnouncementApi, announcementId) {
      ItemKeyInjective(BlogApi, postId, AnnouncementApi, announcementId);
    }
  }
}

=== FILE: client.dfy ===
/** The content gateway `ContentClient` of src/lib/blog.ts: cache-aside reads of lists and single
    items, draft previews and search that bypass the store, and webhook invalidation. Every
    operation takes the store as it is before the call and returns a `Run` holding the store
    after it and the calls it made. */
module ContentClient {
  import opened Results
  import opened Content
  import opened Cms
  import opened Effects
  import opened Keys
  import opened Pagination

  const BlogApi: string := "blog"
  const AnnouncementApi: string := "news"

  /** Reading the cache: `JSON.parse((await kv.get(key)) ?? "")`, where a throwing `get` or a
      throwing `parse` both yield None, a miss. */
  function ReadCache<X>(codec: Codec<X>, io: KvIo, store: Store, key: string): (cached: Option<X>)
    ensures !io.readOk ==> cached.None?
    ensures io.readOk && key in store ==> cached == codec.parse(store[key])
    ensures JsonLike(codec) && key !in store ==> cached.None?
  {
    if io.readOk then codec.parse(OrElse(if key in store then Some(store[key]) else None, ""))
    else None
  }

  /** The read path both kinds of cached read share. On a hit the cached value is returned and
      nothing else happens. On a miss the CMS is called (`call`, answering `answer`); when it
      throws, its error is the result; otherwise its value is the result and one `put` of the
      serialised value is attempted, whose failure is swallowed. */
  function CacheAside<X>(codec: Codec<X>, io: KvIo, store: Store, key: string, call: Effect, answer: Result<X, string>)
    : (r: Run<X>)
    ensures r.kv - {key} == store - {key}
    ensures ReadCache(codec, io, store, key).Some? ==>
              r.result == Ok(ReadCache(codec, io, store, key).value) && r.kv == store && r.effects == [KvGet(key)]
    ensures ReadCache(codec, io, store, key).None? ==>
              r.result == FromCms(answer) && |r.effects| >= 2 && r.effects[..2] == [KvGet(key), call]
    ensures ReadCache(codec, io, store, key).None? && answer.Err? ==>
              r.effects == [KvGet(key), call]
    ensures ReadCache(codec, io, store, key).None? && answer.Ok? ==>
              r.effects == [KvGet(key), call, KvPut(key, codec.stringify(answer.value))]
    ensures r.kv != store ==>
              ReadCache(codec, io, store, key).None? && answer.Ok? && io.writeOk
              && r.kv == store[key := codec.stringify(answer.value)]
  {
    match ReadCache(codec, io, store, key)
    case Some(v) => Run(Ok(v), store, [KvGet(key)])
    case None =>
      (match answer
       case Err(cause) => Run(Err(Upstream(cause)), store, [KvGet(key), call])
       case Ok(v) =>
         var text := codec.stringify(v);
         Run(Ok(v), if io.writeOk then store[key := text] else store, [KvGet(key), call, KvPut(key, text)]))
  }

  /** `getAllContents`: every item of `endpoint`, cached under the endpoint name and fetched in
      creation order on a miss. */
  function GetAllContents<T>(cms: Client<T>, codec: Codec<seq<Listed<T>>>, io: KvIo, store: Store, endpoint: string)
    : (r: Run<seq<Listed<T>>>)
    ensures r.kv - {endpoint} == store - {endpoint}
    ensures ReadCache(codec, io, store, endpoint).Some? ==>
              && r.result == Ok(ReadCache(codec, io, store, endpoint).value)
              && r.kv == store
              && forall e | e in r.effects :: e.IsKv()
    ensures ReadCache(codec, io, store, endpoint).None? ==>
              && r.result == FromCms(cms.getAllContents(ListQuery(endpoint, "createdAt")))
              && CmsList(ListQuery(endpoint, "createdAt")) in r.effects
    ensures ReadCache(codec, io, store, endpoint).None? && r.result.Ok? && io.writeOk ==>
              r.kv == store[endpoint := codec.stringify(r.result.value)]
    ensures r.kv != store ==> ReadCache(codec, io, store, endpoint).None? && r.result.Ok? && io.writeOk
  {
    var query := ListQuery(endpoint, CreatedAt);
    CacheAside(codec, io, store, ListKey(endpoint), CmsList(query), cms.getAllContents(query))
  }

  /** `getContentFromId`: one item, cached under `endpoint.contentId`. An endpoint containing the
      delimiter is refused with a TypeError before any call is made. */
  function GetContentFromId<T>(cms: Client<T>, codec: Codec<Listed<T>>, io: KvIo, store: Store, endpoint: string, contentId: string)
    : (r: Run<Listed<T>>)
    ensures Delimiter in endpoint ==> r.result == Err(DelimiterInStoreName) && r.kv == store && r.effects == []
    ensures r.kv - {ItemKey(endpoint, contentId)} == store - {ItemKey(endpoint, contentId)}
    ensures Delimiter !in endpoint && ReadCache(codec, io, store, ItemKey(endpoint, contentId)).Some? ==>
              && r.result == Ok(ReadCache(codec, io, store, ItemKey(endpoint, contentId)).value)
              && r.kv == store
              && forall e | e in r.effects :: e.IsKv()
    ensures Delimiter !in endpoint && ReadCache(codec, io, store, ItemKey(endpoint, contentId)).None? ==>
              && r.result == FromCms(cms.getListDetail(DetailQuery(endpoint, contentId, None)))
              && CmsDetail(DetailQuery(endpoint, contentId, None)) in r.effects
    ensures Delimiter !in endpoint && ReadCache(codec, io, store, ItemKey(endpoint, contentId)).None? && r.result.Ok? && io.writeOk ==>
              r.kv == store[ItemKey(endpoint, contentId) := codec.stringify(r.result.value)]
    ensures r.kv != store ==> ReadCache(codec, io, store, ItemKey(endpoint, contentId)).None? && r.result.Ok? && io.writeOk
  {
    if Delimiter in endpoint then
      Run(Err(DelimiterInStoreName), store, [])
    else
      var query := DetailQuery(endpoint, contentId, None);
      CacheAside(codec, io, store, ItemKey(endpoint, contentId), CmsDetail(query), cms.getListDetail(query))
  }

  /** `getDraft`: a preview fetched straight from the CMS with the draft key; the store is neither
      read nor written. */
  function GetDraft<T>(cms: Client<T>, store: Store, endpoint: string, contentId: string, draftKey: string)
    : (r: Run<Listed<T>>)
    ensures r.kv == store
    ensures forall e | e in r.effects :: !e.IsKv()
    ensures r.effects == [CmsDetail(DetailQuery(endpoint, contentId, Some(draftKey)))]
    ensures r.result.Ok? <==> cms.getListDetail(DetailQuery(endpoint, contentId, Some(draftKey))).Ok?
    ensures r.result.Ok? ==> r.result.value == cms.getListDetail(DetailQuery(endpoint, contentId, Some(draftKey))).value
    ensures r.result.Err? ==> r.result.error == Upstream(cms.getListDetail(DetailQuery(endpoint, contentId, Some(draftKey))).error)
  {
    var query := DetailQuery(endpoint, contentId, Some(draftKey));
    Run(FromCms(cms.getListDetail(query)), store, [CmsDetail(query)])
  }

  /** `getAllPosts`: the list read bound to the "blog" endpoint. */
  function GetAllPosts(cms: Client<Post>, codec: Codec<seq<Listed<Post>>>, io: KvIo, store: Store)
    : (r: Run<seq<Listed<Post>>>)
    ensures ReadCache(codec, io, store, "blog").Some? ==> r.result == Ok(ReadCache(codec, io, store, "blog").value)
    ensures ReadCache(codec, io, store, "blog").None? ==> r.result == FromCms(cms.getAllContents(ListQuery("blog", "createdAt")))
    ensures r.kv - {"blog"} == store - {"blog"}
    ensures forall e | e in r.effects :: e.IsKv() || e == CmsList(ListQuery("blog", "createdAt"))
  {
    GetAllContents(cms, codec, io, store, BlogApi)
  }

  /** `getAllAnnouncements`: the list read bound to the "news" endpoint. */
  function GetAllAnnouncements(cms: Client<Announcement>, codec: Codec<seq<Listed<Announcement>>>, io: KvIo, store: Store)
    : (r: Run<seq<Listed<Announcement>>>)
    ensures ReadCache(codec, io, store, "news").Some? ==> r.result == Ok(ReadCache(codec, io, store, "news").value)
    ensures ReadCache(codec, io, store, "news").None? ==> r.result == FromCms(cms.getAllContents(ListQuery("news", "createdAt")))
    ensures r.kv - {"news"} == store - {"news"}
    ensures forall e | e in r.effects :: e.IsKv() || e == CmsList(ListQuery("news", "createdAt"))
  {
    GetAllContents(cms, codec, io, store, AnnouncementApi)
  }

  /** `getPost`: the single-item read bound to the "blog" endpoint, which passes the guard. */
  function GetPost(cms: Client<Post>, codec: Codec<Listed<Post>>, io: KvIo, store: Store, id: string)
    : (r: Run<Listed<Post>>)
    ensures ReadCache(codec, io, store, ItemKey(BlogApi, id)).Some? ==>
              r.result == Ok(ReadCache(codec, io, store, ItemKey(BlogApi, id)).value)
    ensures ReadCache(codec, io, store, ItemKey(BlogApi, id)).None? ==>
              r.result == FromCms(cms.getListDetail(DetailQuery("blog", id, None)))
    ensures r.result.Err? ==> r.result.error.Upstream?
    ensures r.kv - {ItemKey(BlogApi, id)} == store - {ItemKey(BlogApi, id)}
    ensures forall e | e in r.effects :: e.IsKv() || e == CmsDetail(DetailQuery("blog", id, None))
  {
    GetContentFromId(cms, codec, io, store, BlogApi, id)
  }

  /** `getAnnouncement`: the single-item read bound to the "news" endpoint, which passes the guard. */
  function GetAnnouncement(cms: Client<Announcement>, codec: Codec<Listed<Announcement>>, io: KvIo, store: Store, id: string)
    : (r: Run<Listed<Announcement>>)
    ensures ReadCache(codec, io, store, ItemKey(AnnouncementApi, id)).Some? ==>
              r.result == Ok(ReadCache(codec, io, store, ItemKey(AnnouncementApi, id)).value)
    ensures ReadCache(codec, io, store, ItemKey(AnnouncementApi, id)).None? ==>
              r.result == FromCms(cms.getListDetail(DetailQuery("news", id, None)))
    ensures r.result.Err? ==> r.result.error.Upstream?
    ensures r.kv - {ItemKey(AnnouncementApi, id)} == store - {ItemKey(AnnouncementApi, id)}
    ensures forall e | e in r.effects :: e.IsKv() || e == CmsDetail(DetailQuery("news", id, None))
  {
    GetContentFromId(cms, codec, io, store, AnnouncementApi, id)
  }

  /** `getBlogDraft`: the draft preview bound to the "blog" endpoint. */
  function GetBlogDraft(cms: Client<Post>, store: Store, id: string, draftKey: string): (r: Run<Listed<Post>>)
    ensures r.result == FromCms(cms.getListDetail(DetailQuery("blog", id, Some(draftKey))))
    ensures r.kv == store
    ensures r.effects == [CmsDetail(DetailQuery("blog", id, Some(draftKey)))]
  {
    GetDraft(cms, store, BlogApi, id, draftKey)
  }

  /** What `searchBlog` returns: one page of matching posts and whether there are pages after and
      before it. */
  datatype SearchResult = SearchResult(next: bool, back: bool, contents: seq<Listed<Post>>)

  /** `searchBlog`: one CMS search, ten posts a page by publication time, never cached. */
  function SearchBlog(cms: Client<Post>, store: Store, q: string, page: int): (r: Run<SearchResult>)
    ensures r.kv == store
    ensures r.effects == [CmsSearch(SearchQuery("blog", q, 10, "publishedAt", page * 10))]
    ensures r.result.Ok? <==> cms.getList(SearchQuery("blog", q, 10, "publishedAt", page * 10)).Ok?
    ensures r.result.Err? ==> r.result.error == Upstream(cms.getList(SearchQuery("blog", q, 10, "publishedAt", page * 10)).error)
    ensures r.result.Ok? ==>
              var answer := cms.getList(SearchQuery("blog", q, 10, "publishedAt", page * 10)).value;
              && r.result.value.contents == answer.contents
              && (r.result.value.next <==> (page + 1) * 10 < answer.totalCount)
              && (r.result.value.back <==> page != 0)
  {
    var query := SearchQuery(BlogApi, q, PageSize, PublishedAt, Offset(page));
    match cms.getList(query)
    case Err(cause) => Run(Err(Upstream(cause)), store, [CmsSearch(query)])
    case Ok(answer) =>
      Run(Ok(SearchResult(HasNext(page, answer.totalCount), HasBack(page), answer.contents)), store, [CmsSearch(query)])
  }

  /** The key and the signature a webhook request carries. */
  datatype SignatureOptions = SignatureOptions(key: string, signature: string)

  /** The one cache key a webhook invalidates: the endpoint itself, or the endpoint and the id when
      the id is present and non-empty (an empty id is falsy). */
  function InvalidationKey(hook: Webhook): (key: string)
    ensures hook.id.Some? && hook.id.value != "" ==> key == ItemKey(hook.api, hook.id.value)
    ensures hook.id.None? || hook.id.value == "" ==> key == ListKey(hook.api)
  {
    hook.api + (if hook.id.Some? && hook.id.value != "" then [Delimiter] + hook.id.value else "")
  }

  /** `webhookDelete`: parse the body and delete the one key it names. The HMAC check's promise is
      never awaited, so the check never rejects; `options` has no influence on the outcome. */
  function WebhookDelete(parse: string -> Option<Webhook>, io: KvIo, store: Store, rawBody: string, options: SignatureOptions)
    : (r: Run<()>)
    ensures parse(rawBody).None? ==> r.result == Err(SyntaxError) && r.kv == store && r.effects == []
    ensures parse(rawBody).Some? ==> r.effects == [KvDelete(InvalidationKey(parse(rawBody).value))]
    ensures parse(rawBody).Some? ==> (r.result.Ok? <==> io.deleteOk)
    ensures r.result.Ok? ==>
              var key := InvalidationKey(parse(rawBody).value);
              && key !in r.kv
              && r.kv.Keys == store.Keys - {key}
              && forall k | k in r.kv :: r.kv[k] == store[k]
    ensures r.result.Err? ==> r.kv == store
  {
    match parse(rawBody)
    case None => Run(Err(SyntaxError), store, [])
    case Some(hook) =>
      var key := InvalidationKey(hook);
      if io.deleteOk then Run(Ok(()), store - {key}, [KvDelete(key)])
      else Run(Err(StoreFailure), store, [KvDelete(key)])
  }
}

=== FILE: cms.dfy ===
/** The consumed interfaces: the CMS client and JSON, both uninterpreted. */
module Cms {
  import opened Results
  import opened Content

  const CreatedAt: string := "createdAt"
  const PublishedAt: string := "publishedAt"

  /** Arguments of the SDK's `getAllContents`: every item of an endpoint, in the given order. */
  datatype ListQuery = ListQuery(endpoint: string, orders: string)

  /** Arguments of the SDK's `getListDetail`; `draftKey` is present only for draft previews. */
  datatype DetailQuery = DetailQuery(endpoint: string, contentId: string, draftKey: Option<string>)

  /** Arguments of the SDK's `getList` used for search. */
  datatype SearchQuery = SearchQuery(endpoint: string, q: string, limit: int, orders: string, offset: int)

  /** One page of a `getList` answer. */
  datatype ListPage<T> = ListPage(contents: seq<Listed<T>>, totalCount: int, offset: int, limit: int)

  /** The CMS client for one content type. Each call either answers or throws with a cause;
      which, and what it answers, is outside the model. */
  datatype Client<T> = Client(
    getAllContents: ListQuery -> Result<seq<Listed<T>>, string>,
    getListDetail: DetailQuery -> Result<Listed<T>, string>,
    getList: SearchQuery -> Result<ListPage<T>, string>)

  /** `JSON.parse` (None when it throws) and `JSON.stringify` for the values of type X. */
  datatype Codec<!X> = Codec(parse: string -> Option<X>, stringify: X -> string)

  /** `JSON.parse("")` throws: the empty text is never a serialised value. */
  predicate JsonLike<X>(codec: Codec<X>)
  {
    codec.parse("").None?
  }

  /** Serialising `x` and parsing the text back gives `x` again. */
  ghost predicate RoundTrips<X>(codec: Codec<X>, x: X)
  {
    codec.parse(codec.stringify(x)) == Some(x)
  }
}

=== FILE: coherence.dfy ===
/** Cache coherence over whole runs of the gateway, for a CMS whose content does not change
    during the run. Every cache entry is the serialisation of the CMS's answer for the query its key
    names, every operation keeps that so, and therefore every cached read returns exactly what
    the CMS answers. */
module Coherence {
  import opened Results
  import opened Content
  import opened Cms
  import opened Effects
  import opened Keys
  import opened ContentClient

  /** The collaborators of one run: the CMS client for a content type, the JSON codecs for its
      lists and items, and the webhook body parser. */
  datatype World<!T> = World(
    cms: Client<T>,
    lists: Codec<seq<Listed<T>>>,
    items: Codec<Listed<T>>,
    parse: string -> Option<Webhook>)

  /** One gateway call in a run, with the store outcomes it meets. */
  datatype Op =
    | ReadList(endpoint: string, io: KvIo)
    | ReadItem(endpoint: string, id: string, io: KvIo)
    | ReadDraft(endpoint: string, id: string, draftKey: string)
    | Invalidate(rawBody: string, io: KvIo, options: SignatureOptions)

  /** List reads on delimiter-free endpoints only, as the blog's own wrappers issue them. */
  predicate ListGuarded(op: Op)
  {
    op.ReadList? ==> Delimiter !in op.endpoint
  }

  /** The store after one call. */
  function Step<T>(w: World<T>, store: Store, op: Op): Store
  {
    match op
    case ReadList(e, io) => GetAllContents(w.cms, w.lists, io, store, e).kv
    case ReadItem(e, id, io) => GetContentFromId(w.cms, w.items, io, store, e, id).kv
    case ReadDraft(e, id, draftKey) => GetDraft(w.cms, store, e, id, draftKey).kv
    case Invalidate(rawBody, io, options) => WebhookDelete(w.parse, io, store, rawBody, options).kv
  }

  /** The store after a sequence of calls, made one after the other. */
  function Replay<T>(w: World<T>, store: Store, ops: seq<Op>): Store
    decreases |ops|
  {
    if ops == [] then store else Replay(w, Step(w, store, ops[0]), ops[1..])
  }

  /** The position of the first occurrence of `c` in `s`. */
  function IndexOf(s: string, c: char): (i: nat)
    requires c in s
    ensures i < |s| && s[i] == c
    ensures forall j | 0 <= j < i :: s[j] != c
  {
    if s[0] == c then 0 else 1 + IndexOf(s[1..], c)
  }

  /** An item key of a delimiter-free endpoint splits at its first delimiter into the endpoint
      and the content id. */
  lemma ItemKeySplits(endpoint: string, id: string)
    requires Delimiter !in endpoint
    ensures var key := ItemKey(endpoint, id);
            && Delimiter in key
            && IndexOf(key, Delimiter) == |endpoint|
            && key[..IndexOf(key, Delimiter)] == endpoint
            && key[IndexOf(key, Delimiter) + 1..] == id
  {
  }

  /** The entry under `key` holds the serialised CMS answer for the query the key names: the
      detail of (endpoint, id) for an item key, the creation-ordered list for a list key. */
  ghost predicate CoherentEntry<T>(w: World<T>, key: string, value: string)
  {
    if Delimiter in key then
      var i := IndexOf(key, Delimiter);
      var answer := w.cms.getListDetail(DetailQuery(key[..i], key[i + 1..], None));
      answer.Ok? && value == w.items.stringify(answer.value)
    else
      var answer := w.cms.getAllContents(ListQuery(key, CreatedAt));
      answer.Ok? && value == w.lists.stringify(answer.value)
  }

  ghost predicate Coherent<T>(w: World<T>, store: Store)
  {
    forall key | key in store :: CoherentEntry(w, key, store[key])
  }

  /** JSON behaves as JSON on what the CMS serves: the empty text does not parse, and every CMS
      answer survives serialisation. */
  ghost predicate FaithfulJson<T>(w: World<T>)
  {
    && JsonLike(w.lists)
    && JsonLike(w.items)
    && (forall q | w.cms.getAllContents(q).Ok? :: RoundTrips(w.lists, w.cms.getAllContents(q).value))
    && (forall q | w.cms.getListDetail(q).Ok? :: RoundTrips(w.items, w.cms.getListDetail(q).value))
  }

  /** Every guarded call keeps the cache coherent. */
  lemma StepKeepsCoherent<T>(w: World<T>, store: Store, op: Op)
    requires Coherent(w, store) && ListGuarded(op)
    ensures Coherent(w, Step(w, store, op))
  {
    var after := Step(w, store, op);
    match op
    case ReadList(e, io) =>
      forall key | key in after
        ensures CoherentEntry(w, key, after[key])
      {
        if key != e {
          assert key in after - {e};
        }
      }
    case ReadItem(e, id, io) =>
      if Delimiter !in e {
        ItemKeySplits(e, id);
        var itemKey := ItemKey(e, id);
        forall key | key in after
          ensures CoherentEntry(w, key, after[key])
        {
          if key != itemKey {
            assert key in after - {itemKey};
          }
        }
      }
    case ReadDraft(_, _, _) =>
    case Invalidate(_, _, _) =>
  }

  /** Every run of guarded calls keeps the cache coherent. */
  lemma {:induction false} ReplayKeepsCoherent<T>(w: World<T>, store: Store, ops: seq<Op>)
    requires Coherent(w, store)
    requires forall k | 0 <= k < |ops| :: ListGuarded(ops[k])
    ensures Coherent(w, Replay(w, store, ops))
    decreases |ops|
  {
    if ops != [] {
      StepKeepsCoherent(w, store, ops[0]);
      ReplayKeepsCoherent(w, Step(w, store, ops[0]), ops[1..]);
    }
  }

  /** On a coherent cache a list read returns exactly the CMS's answer, hit or miss. */
  lemma ListReadTransparent<T>(w: World<T>, io: KvIo, store: Store, endpoint: string)
    requires FaithfulJson(w) && Coherent(w, store)
    requires Delimiter !in endpoint
    ensures GetAllContents(w.cms, w.lists, io, store, endpoint).result
            == FromCms(w.cms.getAllContents(ListQuery(endpoint, CreatedAt)))
  {
    if ReadCache(w.lists, io, store, endpoint).Some? {
      assert CoherentEntry(w, endpoint, store[endpoint]);
    }
  }

  /** On a coherent cache a single-item read of a delimiter-free endpoint returns exactly the
      CMS's answer, hit or miss. */
  lemma ItemReadTransparent<T>(w: World<T>, io: KvIo, store: Store, endpoint: string, id: string)
    requires FaithfulJson(w) && Coherent(w, store)
    requires Delimiter !in endpoint
    ensures GetContentFromId(w.cms, w.items, io, store, endpoint, id).result
            == FromCms(w.cms.getListDetail(DetailQuery(endpoint, id, None)))
  {
    var key := ItemKey(endpoint, id);
    if ReadCache(w.items, io, store, key).Some? {
      ItemKeySplits(endpoint, id);
      assert CoherentEntry(w, key, store[key]);
    }
  }

  /** Starting from an empty cache, after any run of guarded calls, reads through the cache
      answer exactly what the CMS answers. */
  lemma CacheIsTransparent<T>(w: World<T>, ops: seq<Op>, io: KvIo, endpoint: string, id: string)
    requires FaithfulJson(w)
    requires forall k | 0 <= k < |ops| :: ListGuarded(ops[k])
    requires Delimiter !in endpoint
    ensures var store := Replay(w, map[], ops);
            && GetAllContents(w.cms, w.lists, io, store, endpoint).result
               == FromCms(w.cms.getAllContents(ListQuery(endpoint, CreatedAt)))
            && GetContentFromId(w.cms, w.items, io, store, endpoint, id).result
               == FromCms(w.cms.getListDetail(DetailQuery(endpoint, id, None)))
  {
    ReplayKeepsCoherent(w, map[], ops);
    var store := Replay(w, map[], ops);
    ListReadTransparent(w, io, store, endpoint);
    ItemReadTransparent(w, io, store, endpoint, id);
  }
}

=== FILE: content.dfy ===
/** The records the headless CMS serves and the webhook it sends (src/lib/blog.ts). */
module Content {
  import opened Results

  /** The metadata every list content carries (`MicroCMSListContent`). */
  datatype ListMeta = ListMeta(
    id: string,
    createdAt: string,
    updatedAt: string,
    publishedAt: Option<string>,
    revisedAt: Option<string>)

  /** A content item of an endpoint: its metadata together with the endpoint's own fields. */
  datatype Listed<T> = Listed(meta: ListMeta, fields: T)

  /** A cover image descriptor (`MicroCMSImage`). */
  datatype Image = Image(url: string, height: Option<int>, width: Option<int>)

  /** A category, itself a list content with a name; posts refer to it. */
  datatype Category = Category(meta: ListMeta, name: string)

  /** The fields of a blog post (`PostBase`); `content` is HTML. */
  datatype Post = Post(title: string, content: string, eyecatch: Option<Image>, category: Option<Category>)

  /** The fields of an announcement (`AnnouncementBase`); `content` is HTML. */
  datatype Announcement = Announcement(content: string, title: string, category: Option<Category>)

  datatype Mutation = New | Edit | Delete

  /** The webhook payload the CMS posts when content changes; its `content` part is ignored and left out. */
  datatype Webhook = Webhook(service: string, api: string, id: Option<string>, mutation: Mutation)
}

=== FILE: description.dfy ===
/** The short description shown for a piece of content (src/lib/description.ts): the HTML is
    turned into plain text, and text longer than the limit is cut and marked with an ellipsis. */
module Description {

  const Limit: int := 50
  const More: string := "..."

  /** The truncation rule applied to the plain text. */
  function Truncate(text: string): (r: string)
    ensures |r| <= 50 && |r| <= |text|
    ensures |text| <= 50 ==> r == text
    ensures |text| > 50 ==>
              && |r| == 50
              && (forall i | 0 <= i < 47 :: r[i] == text[i])
              && r[47] == '.' && r[48] == '.' && r[49] == '.'
  {
    if |text| > Limit then text[..Limit - |More|] + More else text
  }

  /** `getDescriptionFor`; `htmlToText` is the html-to-text library, an opaque function here. */
  function GetDescriptionFor(htmlToText: string -> string, content: string): (r: string)
    ensures |r| <= 50
    ensures |htmlToText(content)| <= 50 <==> r == htmlToText(content)
    ensures |htmlToText(content)| > 50 ==> r == htmlToText(content)[..47] + "..."
  {
    Truncate(htmlToText(content))
  }

  /** A description is a fixed point of the rule: truncating it again changes nothing. */
  lemma TruncateIdempotent(text: string)
    ensures Truncate(Truncate(text)) == Truncate(text)
  {
  }

  /** The text comes back unchanged exactly when it is at most 50 long. */
  lemma TruncateKeepsIffShort(text: string)
    ensures Truncate(text) == text <==> |text| <= 50
  {
  }

  /** The first 47 characters of a text of at least that length always survive truncation. */
  lemma TruncateKeepsFirst47(text: string)
    requires |text| >= 47
    ensures Truncate(text)[..47] == text[..47]
  {
  }
}

=== FILE: effects.dfy ===
/** The key-value store, the errors an operation can raise, and the record of the calls it made. */
module Effects {
  import opened Results
  import opened Cms

  /** The key-value namespace (`KVNamespace`): text values under text keys. */
  type Store = map<string, string>

  /** Which of the store's calls throw during one operation (rate limits, outages). */
  datatype KvIo = KvIo(readOk: bool, writeOk: bool, deleteOk: bool)

  datatype Error =
    | DelimiterInStoreName    // the TypeError raised for an endpoint containing "."
    | SyntaxError             // JSON.parse of a webhook body threw
    | StoreFailure            // kv.delete threw
    | Upstream(cause: string) // a CMS call threw; passed on as is

  /** One call made to the store or to the CMS. */
  datatype Effect =
    | KvGet(key: string)
    | KvPut(key: string, value: string)
    | KvDelete(key: string)
    | CmsList(list: ListQuery)
    | CmsDetail(detail: DetailQuery)
    | CmsSearch(search: SearchQuery)
  {
    predicate IsKv()
    {
      KvGet? || KvPut? || KvDelete?
    }
  }

  /** What an operation produces: its result, the store afterwards, and the calls it made in order. */
  datatype Run<T> = Run(result: Result<T, Error>, kv: Store, effects: seq<Effect>)

  /** A CMS answer as the caller sees it: the value, or the CMS's exception unchanged. */
  function FromCms<X>(answer: Result<X, string>): (r: Result<X, Error>)
    ensures r.Ok? <==> answer.Ok?
    ensures r.Ok? ==> r.value == answer.value
    ensures r.Err? ==> r.error == Upstream(answer.error)
  {
    match answer
    case Ok(v) => Ok(v)
    case Err(cause) => Err(Upstream(cause))
  }
}

=== FILE: feed.dfy ===
/** The item projection of the RSS feed (src/pages/rss.xml.ts:14-20): each post becomes one feed
    item whose link points at the post's page. */
module Feed {
  import opened Results
  import opened Content

  /** One feed item. `pubDate` holds the timestamp text the `Date` is built from. */
  datatype FeedItem = FeedItem(
    pubDate: Option<string>,
    title: string,
    categories: Option<seq<string>>,
    content: string,
    link: string)

  const LinkPrefix: string := "/blog/"

  /** The page of the post `id`: `/blog/{id}/`. */
  function Link(id: string): string
  {
    LinkPrefix + id + "/"
  }

  /** Reads the post id back out of a feed link; None for text that is not such a link. */
  function LinkId(link: string): (id: Option<string>)
    ensures id.Some? ==> |link| == |LinkPrefix| + |id.value| + 1
  {
    if |link| >= |LinkPrefix| + 1 && link[..|LinkPrefix|] == LinkPrefix && link[|link| - 1] == '/'
    then Some(link[|LinkPrefix|..|link| - 1])
    else None
  }

  /** `LinkId` undoes `Link`. */
  lemma LinkRoundTrip(id: string)
    ensures LinkId(Link(id)) == Some(id)
  {
    var link := Link(id);
    assert link[..|LinkPrefix|] == LinkPrefix;
    assert link[|LinkPrefix|..|link| - 1] == id;
  }

  /** Every text `LinkId` accepts is the link of the id it reads. */
  lemma LinkIdSound(link: string)
    requires LinkId(link).Some?
    ensures Link(LinkId(link).value) == link
  {
    var id := LinkId(link).value;
    assert link == link[..|LinkPrefix|] + link[|LinkPrefix|..|link| - 1] + [link[|link| - 1]];
  }

  /** Different posts get different links. */
  lemma LinkInjective(a: string, b: string)
    requires Link(a) == Link(b)
    ensures a == b
  {
    LinkRoundTrip(a);
    LinkRoundTrip(b);
  }

  /** Whether the category is shown: a category is present and its name is non-empty (truthy). */
  predicate HasCategoryName(post: Post)
  {
    post.category.Some? && post.category.value.name != ""
  }

  /** The projection of one post. */
  function ToFeedItem(post: Listed<Post>): (item: FeedItem)
    ensures item.title == post.fields.title && item.content == post.fields.content
    ensures LinkId(item.link) == Some(post.meta.id)
    ensures item.categories.Some? <==> HasCategoryName(post.fields)
    ensures item.categories.Some? ==> item.categories.value == [post.fields.category.value.name]
    ensures item.pubDate.None? <==> post.meta.publishedAt.None? || post.meta.publishedAt.value == ""
    ensures item.pubDate.Some? ==> item.pubDate == post.meta.publishedAt
  {
    LinkRoundTrip(post.meta.id);
    FeedItem(
      if post.meta.publishedAt.Some? && post.meta.publishedAt.value != "" then post.meta.publishedAt else None,
      post.fields.title,
      if HasCategoryName(post.fields) then Some([post.fields.category.value.name]) else None,
      post.fields.content,
      Link(post.meta.id))
  }

  /** `posts.map(...)`: one item per post, in the same order. */
  function FeedItems(posts: seq<Listed<Post>>): (items: seq<FeedItem>)
    ensures |items| == |posts|
    ensures forall i | 0 <= i < |posts| :: items[i] == ToFeedItem(posts[i])
  {
    if posts == [] then [] else [ToFeedItem(posts[0])] + FeedItems(posts[1..])
  }

  /** Posts with distinct ids give a feed whose links are pairwise distinct. */
  lemma FeedLinksDistinct(posts: seq<Listed<Post>>)
    requires forall i, j | 0 <= i < j < |posts| :: posts[i].meta.id != posts[j].meta.id
    ensures forall i, j | 0 <= i < j < |posts| :: FeedItems(posts)[i].link != FeedItems(posts)[j].link
  {
  }
}

=== FILE: freshness.dfy ===
/** What a webhook leaves stale once CMS content changes. The code deletes one key per webhook
    (src/lib/blog.ts:167-169), and a webhook about a post names that post, so the cached list of
    its endpoint survives and keeps being served. `WebhookDeleteFresh` is the repaired
    invalidation, which also drops the endpoint's list. */
module Freshness {
  import opened Results
  import opened Content
  import opened Cms
  import opened Effects
  import opened Keys
  import opened ContentClient

  /** As written: after the CMS changed and the webhook for one post arrived, a list read still
      returns the list cached before the change, without asking the CMS. Whenever the CMS now
      answers anything else, the read is stale. */
  lemma StaleListAfterItemWebhook<T>(
    newCms: Client<T>, lists: Codec<seq<Listed<T>>>, cached: seq<Listed<T>>,
    parse: string -> Option<Webhook>, rawBody: string, options: SignatureOptions,
    io: KvIo, io2: KvIo, store: Store)
    requires parse(rawBody).Some?
    requires Delimiter !in parse(rawBody).value.api
    requires parse(rawBody).value.id.Some? && parse(rawBody).value.id.value != ""
    requires parse(rawBody).value.api in store
    requires store[parse(rawBody).value.api] == lists.stringify(cached) && RoundTrips(lists, cached)
    requires io2.readOk
    ensures var api := parse(rawBody).value.api;
            var after := WebhookDelete(parse, io, store, rawBody, options).kv;
            var read := GetAllContents(newCms, lists, io2, after, api);
            && read.result == Ok(cached)
            && read.effects == [KvGet(api)]
            && (newCms.getAllContents(ListQuery(api, CreatedAt)) != Ok(cached) ==>
                  read.result != FromCms(newCms.getAllContents(ListQuery(api, CreatedAt))))
  {
    var hook := parse(rawBody).value;
    ItemKeyIsNotListKey(hook.api, hook.id.value, hook.api);
  }

  /** The keys a webhook should drop: the endpoint's list, and the named item when there is one. */
  function FreshInvalidationKeys(hook: Webhook): (keys: seq<string>)
    ensures InvalidationKey(hook) in keys && ListKey(hook.api) in keys
    ensures forall k | k in keys :: k == InvalidationKey(hook) || k == ListKey(hook.api)
  {
    if hook.id.Some? && hook.id.value != "" then [InvalidationKey(hook), ListKey(hook.api)]
    else [InvalidationKey(hook)]
  }

  function DeleteAll(store: Store, keys: seq<string>): (s: Store)
    ensures s.Keys == store.Keys - set k | k in keys
    ensures forall k | k in s :: s[k] == store[k]
  {
    if keys == [] then store else DeleteAll(store - {keys[0]}, keys[1..])
  }

  /** Corrected: `webhookDelete` that drops both the item's entry and its endpoint's list. */
  function WebhookDeleteFresh(parse: string -> Option<Webhook>, io: KvIo, store: Store, rawBody: string, options: SignatureOptions)
    : (r: Run<()>)
    ensures parse(rawBody).None? ==> r.result == Err(SyntaxError) && r.kv == store && r.effects == []
    ensures parse(rawBody).Some? ==> (r.result.Ok? <==> io.deleteOk)
    ensures r.result.Ok? ==>
              var hook := parse(rawBody).value;
              && InvalidationKey(hook) !in r.kv && ListKey(hook.api) !in r.kv
              && r.kv.Keys == store.Keys - {InvalidationKey(hook), ListKey(hook.api)}
              && forall k | k in r.kv :: r.kv[k] == store[k]
    ensures r.result.Err? ==> r.kv == store
  {
    match parse(rawBody)
    case None => Run(Err(SyntaxError), store, [])
    case Some(hook) =>
      var keys := FreshInvalidationKeys(hook);
      var deletes := seq(|keys|, i requires 0 <= i < |keys| => KvDelete(keys[i]));
      if io.deleteOk then Run(Ok(()), DeleteAll(store, keys), deletes)
      else Run(Err(StoreFailure), store, deletes)
  }

  /** With the corrected invalidation, after a change and its webhook both the list and the item
      are read afresh from the CMS, whatever the store held before. */
  lemma FreshAfterCorrectedWebhook<T>(
    newCms: Client<T>, lists: Codec<seq<Listed<T>>>, items: Codec<Listed<T>>,
    parse: string -> Option<Webhook>, rawBody: string, options: SignatureOptions,
    io: KvIo, io2: KvIo, store: Store)
    requires JsonLike(lists) && JsonLike(items)
    requires parse(rawBody).Some? && io.deleteOk
    requires Delimiter !in parse(rawBody).value.api
    ensures var hook := parse(rawBody).value;
            var after := WebhookDeleteFresh(parse, io, store, rawBody, options).kv;
            && GetAllContents(newCms, lists, io2, after, hook.api).result
               == FromCms(newCms.getAllContents(ListQuery(hook.api, CreatedAt)))
            && (hook.id.Some? && hook.id.value != "" ==>
                  GetContentFromId(newCms, items, io2, after, hook.api, hook.id.value).result
                  == FromCms(newCms.getListDetail(DetailQuery(hook.api, hook.id.value, None))))
  {
  }
}

=== FILE: keys.dfy ===
/** How cache keys are formed (src/lib/blog.ts:44, 70-76). A list is cached under its endpoint
    name; a single item under the endpoint name, the delimiter and the content id. */
module Keys {

  const Delimiter: char := '.'

  function ListKey(endpoint: string): (key: string)
    ensures Delimiter !in endpoint ==> Delimiter !in key
  {
    endpoint
  }

  function ItemKey(endpoint: string, contentId: string): (key: string)
    ensures |key| == |endpoint| + 1 + |contentId|
    ensures key[..|endpoint|] == endpoint && key[|endpoint|] == Delimiter
    ensures key[|endpoint| + 1..] == contentId
  {
    endpoint + [Delimiter] + contentId
  }

  /** With the delimiter guard, distinct (endpoint, id) pairs never share a cache key. */
  lemma ItemKeyInjective(e1: string, id1: string, e2: string, id2: string)
    requires Delimiter !in e1 && Delimiter !in e2
    requires ItemKey(e1, id1) == ItemKey(e2, id2)
    ensures e1 == e2 && id1 == id2
  {
  }

  /** An item key always holds the delimiter, so it never collides with the list key of a
      delimiter-free endpoint. */
  lemma ItemKeyIsNotListKey(endpoint: string, contentId: string, other: string)
    requires Delimiter !in other
    ensures ItemKey(endpoint, contentId) != ListKey(other)
  {
  }

  /** Only reads of single items are guarded: a list read of the endpoint "a.b" caches under the
      same key as the item "b" of the endpoint "a". */
  lemma UnguardedListKeyMeetsItemKey()
    ensures ListKey("a.b") == ItemKey("a", "b")
  {
  }
}

=== FILE: pagination.dfy ===
/** The page arithmetic of blog search (src/lib/blog.ts:120-135): pages of ten items, the page
    number counted from zero. */
module Pagination {

  const PageSize: int := 10

  /** How many items the CMS skips for `page`. */
  function Offset(page: int): int
  {
    page * PageSize
  }

  /** The `next` flag: some item lies beyond the end of `page`. */
  predicate HasNext(page: int, totalCount: int)
  {
    (page + 1) * PageSize < totalCount
  }

  /** The `back` flag: `page` is not the first page. */
  predicate HasBack(page: int)
  {
    page != 0
  }

  /** The index of the last non-empty page of `totalCount` items. */
  function LastPage(totalCount: int): (last: int)
    requires totalCount > 0
    ensures 0 <= last
    ensures Offset(last) < totalCount <= Offset(last + 1)
  {
    (totalCount - 1) / PageSize
  }

  /** Walking forward from page 0, `next` holds on every page before the last non-empty page and
      on no page from it on. */
  lemma {:induction false} NextIffBeforeLastPage(page: int, totalCount: int)
    requires 0 <= page && totalCount > 0
    ensures HasNext(page, totalCount) <==> page < LastPage(totalCount)
  {
    var last := LastPage(totalCount);
    if page < last {
      assert (page + 1) * PageSize <= last * PageSize;
    } else {
      assert (last + 1) * PageSize <= (page + 1) * PageSize;
    }
  }

  /** The page after the last non-empty page is empty, offers `back` and no `next`: that is
      where paging forward stops. */
  lemma PastLastPage(totalCount: int)
    requires totalCount > 0
    ensures var past := LastPage(totalCount) + 1;
            && totalCount <= Offset(past)
            && HasBack(past)
            && !HasNext(past, totalCount)
  {
  }

  /** Twenty-five results: page 0 offers only `next`, page 2 only `back`. */
  lemma TwentyFiveResults()
    ensures HasNext(0, 25) && !HasBack(0)
    ensures HasBack(2) && !HasNext(2, 25)
    ensures Offset(2) == 20
  {
  }
}

=== FILE: results.dfy ===
/** Optional values and fallible results, shared by every module of the model. */
module Results {

  /** A value that may be missing: TypeScript's `T | undefined` or `T | null`. */
  datatype Option<+T> = None | Some(value: T)

  /** The outcome of a call that may throw: either its value or the error it raised. */
  datatype Result<+T, +E> = Ok(value: T) | Err(error: E)

  /** `o ?? fallback` */
  function OrElse<T>(o: Option<T>, fallback: T): T
  {
    match o
    case Some(v) => v
    case None => fallback
  }
}
